=== FILE: README.md ===
# Katana charge-and-release slash

A model of the katana item of Gate of Babylon and of its slash
enchantment. The player charges the katana by holding "use". On release,
a charge of at least 10 ticks makes the server spend one durability
point and sweep forward one block at a time. Each step damages every
hostile target near the sample point that this sweep has not struck yet.
An optional slash enchantment runs its hit callback after each such
strike. The sweep ends by teleporting the player to the ray's terminal
point, one block lower when the block below is air. Both sides then set
a 200-tick cooldown and count the use.

The model is pure. The world a release sees is an input value, `Katana.World`:
- client or server;
- the ray's terminal point and its distance from the player;
- the hostile targets each step's box query returns, in the host's order;
- whether the block below the terminal point is air.

A release returns the sequence of effects it asks of the host
(`Effects.Effect`): durability point, sounds, particles, entity damage,
callback runs, teleport, cooldown, statistic.

Modules:
- `Effects` (effects.dfy): identities, feedback identifiers, the effect vocabulary, counting.
- `KatanaSlash` (slash_enchantment.dfy): the slash enchantment, its constructors, `canAccept`, `onHit`. It also holds the attachment rule that keeps a stack to one slash enchantment.
- `Sweep` (sweep.dfy): the sweep loop. `SweepFold` is a pure fold over the per-step query results. `RunSweep` is the same loop written with a mutable hit list and proved equal to the fold.
- `Katana` (katana_item.dfy): the item's constructor, `use`, `getSlashEnchantment`, the elapsed-time arithmetic in Java `int`, and `onStoppedUsing`.

The step count follows the code: the loop runs while `i < distance`, so a
distance is rounded up, and 2.5 blocks give three steps.

## Model

| member | source | states |
|---|---|---|
| `Katana.NewKatana` | src/main/java/draylar/gateofbabylon/item/KatanaItem.java:41-44 | the katana's attack damage is the constructor's effective damage, and two slash hits add up to it |
| `Katana.HitDamage` | src/main/java/draylar/gateofbabylon/item/KatanaItem.java:147-149 | one slash hit deals half of the attack damage (`getAttackDamage() / 2`) |
| `Katana.Use` | src/main/java/draylar/gateofbabylon/item/KatanaItem.java:57-66 | starting to use fails exactly when at most one durability point is left, and then asks for no hand; otherwise it consumes and asks for the chosen hand to become active, and the stack can take one more point without reaching its maximum |
| `Katana.GetSlashEnchantment` | src/main/java/draylar/gateofbabylon/item/KatanaItem.java:136-145 | returns nothing exactly when no enchantment on the stack is a slash enchantment; otherwise returns one that is on the stack, and no slash enchantment comes before it in the stack's order |
| `Katana.SlashLookupIsUnique` | src/main/java/draylar/gateofbabylon/item/KatanaItem.java:136-145 | on a stack holding at most one slash enchantment, the lookup returns that one whenever it is present |
| `Katana.Wrap32` | src/main/java/draylar/gateofbabylon/item/KatanaItem.java:72 | Java `int` arithmetic: an in-range result is kept, and any result is congruent to the exact one modulo 2^32 |
| `Katana.ElapsedCountsDown` | src/main/java/draylar/gateofbabylon/item/KatanaItem.java:52-54 | for remaining ticks in 0..72000 the elapsed time is exactly 72000 minus the remaining ticks, lies in 0..72000, and reaches the 10-tick minimum exactly when at most 71990 ticks remain |
| `Katana.Boxes` | src/main/java/draylar/gateofbabylon/item/KatanaItem.java:98-107 | the sweep makes a box query for exactly the natural `i` with `i < distance`, the loop's condition, and step `i` sees the world's `i`-th query result |
| `Katana.TeleportTarget` | src/main/java/draylar/gateofbabylon/item/KatanaItem.java:121-127 | the landing point keeps the terminal x and z; its y is the terminal y minus 1 over air, else the terminal y |
| `Katana.Release` | src/main/java/draylar/gateofbabylon/item/KatanaItem.java:69-133 | a release has no effect at all exactly when the user is not a player or the elapsed time is under 10 ticks; otherwise its last two effects are the 200-tick cooldown and the use statistic for that player |
| `Katana.SlashTraceCounts` | src/main/java/draylar/gateofbabylon/item/KatanaItem.java:79-127 | whatever the sweep does, the server's part of a slash makes exactly one durability call, which takes one point from the swung stack, and teleports exactly once, and it sets no cooldown and counts no use |
| `Katana.ServerSlashCounts` | src/main/java/draylar/gateofbabylon/item/KatanaItem.java:76-128 | the same counts for the server's part of a slash in a given world, its one durability call taking one point from the stack that is swung |
| `Katana.ReleaseBookkeeping` | src/main/java/draylar/gateofbabylon/item/KatanaItem.java:75-131 | a qualifying release sets the cooldown exactly once, always to 200 ticks, and increments the statistic exactly once on both sides; on the server it makes one durability call, taking one point from the swung stack, and teleports once, and on the client it does neither |
| `Katana.ClientReleaseOnlyBookkeeping` | src/main/java/draylar/gateofbabylon/item/KatanaItem.java:75-132 | on the client a qualifying release sets the cooldown and counts the use, and does nothing else |
| `Katana.SlashTraceStrikes` | src/main/java/draylar/gateofbabylon/item/KatanaItem.java:79-127 | the durability point, the swoop sounds and the teleport around the sweep damage no entity and run no callback |
| `Katana.ReleaseStrikes` | src/main/java/draylar/gateofbabylon/item/KatanaItem.java:73-119 | on the server the struck ids are exactly the ids the steps' queries return. The damage effects are one per struck id, each of half the attack damage. The callback runs are one per struck id when the enchantment's callback has an effect |
| `Katana.ReleaseLanding` | src/main/java/draylar/gateofbabylon/item/KatanaItem.java:121-131 | on the server a qualifying release teleports the player exactly once, to the terminal point (one block lower over air), and that teleport comes right before the cooldown and the statistic |
| `Katana.ZeroDistanceStillTeleports` | src/main/java/draylar/gateofbabylon/item/KatanaItem.java:98-127 | a terminal point at distance 0 gives no step and no damage, and the player is still teleported |
| `Sweep.StepCount` | src/main/java/draylar/gateofbabylon/item/KatanaItem.java:98 | the number of loop passes is the least natural number not below the distance |
| `Sweep.StepCountIsLoopBound` | src/main/java/draylar/gateofbabylon/item/KatanaItem.java:98 | a natural `i` is a loop index exactly when `i < distance`, so the count rounds up and a distance of 0 gives no step |
| `Sweep.Fresh` | src/main/java/draylar/gateofbabylon/item/KatanaItem.java:107 | the query with the exclusion predicate returns exactly the box's ids that are not yet in the hit list, and returns each once when the box lists each once |
| `Sweep.SweepHits` | src/main/java/draylar/gateofbabylon/item/KatanaItem.java:95-119 | the sweep's hit list holds exactly the union of the steps' query results, and has no repeats when each query lists an id at most once |
| `Sweep.SweepDamage` | src/main/java/draylar/gateofbabylon/item/KatanaItem.java:107-108 | the damage effects of a sweep are one per entry of the hit list, in order, each from the player and of the sweep's damage |
| `Sweep.SweepHooks` | src/main/java/draylar/gateofbabylon/item/KatanaItem.java:110-112 | the callback runs once per entry of the hit list, with that target, the player and the stack, when the enchantment is present with a callback that has an effect. A run of the no-op callback leaves no record |
| `Sweep.SweepOrder` | src/main/java/draylar/gateofbabylon/item/KatanaItem.java:99-117 | every callback run comes right after the damage of the same target, and a sweep issues only feedback, damage and callback runs |
| `Sweep.DamagedAtMostOnce` | src/main/java/draylar/gateofbabylon/item/KatanaItem.java:95-119 | each id some step returns is damaged exactly once, nothing else is damaged, every hit deals the sweep's damage, and the number of damage effects is the number of distinct ids returned |
| `Sweep.RunSweep` | src/main/java/draylar/gateofbabylon/item/KatanaItem.java:95-119 | the loop with a mutable hit list and an exclusion check per query computes exactly the fold `SweepFold`, whose hit list, damage and callback runs the lemmas above describe |
| `KatanaSlash.WithExecutor` | src/main/java/draylar/gateofbabylon/enchantment/KatanaSlashEnchantment.java:23-28 | the sound and particle getters return the constructor's values, and `onHit` runs the given callback |
| `KatanaSlash.Plain` | src/main/java/draylar/gateofbabylon/enchantment/KatanaSlashEnchantment.java:19-21 | the two-argument constructor keeps sound and particle, and its `onHit` has no effect for any target, source and stack |
| `KatanaSlash.OnHit` | src/main/java/draylar/gateofbabylon/enchantment/KatanaSlashEnchantment.java:43-45 | `onHit` runs the stored callback once, with the same target, source and stack, and it has no effect when the callback is the no-op |
| `KatanaSlash.CanAcceptRefusesSlashOnly` | src/main/java/draylar/gateofbabylon/enchantment/KatanaSlashEnchantment.java:31-33 | `canAccept` is false for every slash enchantment, itself included, and true for every other enchantment |
| `KatanaSlash.Attach` | src/main/java/draylar/gateofbabylon/enchantment/KatanaSlashEnchantment.java:31-33 | whatever the host's rule for other enchantments, an attachment either adds the enchantment or leaves the stack unchanged, and a slash enchantment is added only to a stack holding no slash enchantment |
| `KatanaSlash.SecondSlashRejected` | src/main/java/draylar/gateofbabylon/enchantment/KatanaSlashEnchantment.java:31-33 | under any host rule, attaching a slash enchantment to a stack that already has one leaves the stack unchanged |
| `KatanaSlash.AtMostOneSlash` | src/main/java/draylar/gateofbabylon/enchantment/KatanaSlashEnchantment.java:31-33 | under any host rule, from a stack with at most one slash enchantment, any sequence of attachments leaves at most one |

## Left out

- Ray cast geometry (KatanaItem.java lines 80 and 151-156). This covers the 16-block reach, the zeroed vertical component and the camera position. The terminal point and its distance are independent inputs, so the model does not relate the distance to the terminal point or to the player's feet position.
- Vector arithmetic in doubles (lines 89-92 and 100): the square root, the per-block increment, and the NaN increment at distance 0. Distance and damage are `real`s. Float rounding of `getAttackDamage() / 2` is not modelled.
- The ±2 box around each sample point (line 107). Each step's query result is an input list of target ids.
- Sounds and particles are recorded as identifiers only. Their positions, counts, volumes and the random pitch (lines 83-86, 99, 103, 114-116) are not recorded.
- `setCurrentHand` (line 63) is host code with its own guard. `Katana.Use` records the hand it asks for, not whether the host makes that hand active.
- Sweep.SweepHooks: runs of the no-op callback that the two-argument constructor installs are not recorded. Such a run has no effect, so a present no-op enchantment and an absent one leave the same trace.
- `ItemStack.damage`, the break callback, the cooldown manager, statistics and `requestTeleport` are host code. The model records each call and its arguments, not the call's effect on host state.
- Effects of concrete hit callbacks. A callback is an opaque id, and each run is one recorded effect.
- `getUseAction`, the item settings and the stats given to the sword base class (lines 42 and 47-49). These are registration metadata.
- `EnchantmentHelper.get` (line 137): reading enchantments from item data, levels and unknown ids. A stack carries its enchantments as an ordered list.
- Minecraft's base `Enchantment` class and the vanilla enchantments are not part of this model. `KatanaSlash.Attach` combines enchantments only when each accepts the other. What a non-slash enchantment accepts is a parameter (`KatanaSlash.HostRule`), because vanilla enchantments override the base rule. The source's own part of the rule is `canAccept`, and the one-slash results hold for every host rule.
- Sweep.DamagedAtMostOnce: assumes each query result lists an entity at most once, as the host's entity query does. The exclusion predicate runs while the query runs, before any strike of that step, so a duplicate inside one result would be struck twice; `Sweep.SweepHits` states the union without this assumption.
- The host's tick-by-tick countdown of the remaining use time, and interruptions of a charge, are host code. The model starts from the remaining ticks passed to `onStoppedUsing`.

=== FILE: effects.dfy ===
/** Vocabulary shared by the katana model: opaque identities, feedback
    identifiers, and the effects a release asks the host world to perform.
    A release is modelled as the sequence of effects it issues, in order. */
module Effects {

  /** Absent/present value; stands in for a nullable reference. */
  datatype Option<+T> = None | Some(value: T)

  /** Opaque handles for the host's entities, players and item stacks. */
  type EntityId = nat
  type PlayerId = nat
  type StackId = nat

  /** Sound and particle identifiers; the host's registries are not modelled. */
  datatype Sound = KatanaSwoop | GenericExplode | SoundEvent(soundName: string)
  datatype Particle = Crit | Portal | ParticleEffect(particleName: string)

  datatype Vec3 = Vec3(x: real, y: real, z: real)

  /** One request made of the host.  Positions, volumes and the random pitch
      of feedback are not recorded. */
  datatype Effect =
    | ItemDamaged(stack: StackId, points: nat)
    | SoundPlayed(sound: Sound)
    | ParticlesSpawned(particle: Particle)
    | EntityDamaged(target: EntityId, attacker: PlayerId, amount: real)
    | ExecutorRan(executor: nat, victim: EntityId, source: PlayerId, item: StackId)
    | Teleported(mover: PlayerId, pos: Vec3)
    | CooldownSet(holder: PlayerId, ticks: nat)
    | StatIncremented(user: PlayerId)

  /** Number of effects in `trace` satisfying `p`. */
  function Count(trace: seq<Effect>, p: Effect -> bool): (n: nat)
    ensures n <= |trace|
    ensures n == 0 <==> forall i :: 0 <= i < |trace| ==> !p(trace[i])
  {
    if |trace| == 0 then 0
    else Count(trace[..|trace| - 1], p) + (if p(trace[|trace| - 1]) then 1 else 0)
  }

  lemma {:induction false} CountAppend(a: seq<Effect>, b: seq<Effect>, p: Effect -> bool)
    ensures Count(a + b, p) == Count(a, p) + Count(b, p)
    decreases |b|
  {
    if |b| == 0 {
      assert a + b == a;
    } else {
      var b' := b[..|b| - 1];
      assert (a + b)[..|a + b| - 1] == a + b';
      CountAppend(a, b', p);
    }
  }

  lemma CountAppend3(a: seq<Effect>, b: seq<Effect>, c: seq<Effect>, p: Effect -> bool)
    ensures Count((a + b) + c, p) == Count(a, p) + Count(b, p) + Count(c, p)
  {
    CountAppend(a + b, c, p);
    CountAppend(a, b, p);
  }

  lemma CountSingle(e: Effect, p: Effect -> bool)
    ensures Count([e], p) == if p(e) then 1 else 0
  {
    assert [e][..0] == [];
  }
}

=== FILE: katana_item.dfy ===
/** The katana item: the gate on starting to charge, the lookup of its slash
    enchantment, and what releasing the charge does.  The world the release
    acts on (client or server, the ray's terminal point and its distance,
    the per-step box queries, the block under the terminal point) arrives
    as an input; the release returns the effects it issues, in order. */
module Katana {
  import opened Effects
  import opened KatanaSlash
  import opened Sweep

  /** Java's `int`. */
  newtype int32 = x: int | -0x8000_0000 <= x < 0x8000_0000

  /** Java's 32-bit two's-complement wrap-around of an exact result. */
  function Wrap32(x: int): (r: int32)
    ensures -0x8000_0000 <= x < 0x8000_0000 ==> r as int == x
    ensures (r as int - x) % 0x1_0000_0000 == 0
  {
    ((x + 0x8000_0000) % 0x1_0000_0000 - 0x8000_0000) as int32
  }

  /** The use duration reported to the host: an hour of ticks, a safety cap. */
  const MaxUseTime: int32 := 72000
  /** The shortest charge, in ticks, that triggers a slash. */
  const MinChargeTicks: int32 := 10
  /** The cooldown after a slash: ten seconds of twenty ticks. */
  const CooldownTicks: nat := 20 * 10

  /** The item; `attackDamage` is the constructor's effective damage. */
  datatype Katana = Katana(attackDamage: real)

  /** The constructor keeps the effective damage as the katana's attack damage
      (the rounded stats handed to the sword base class are not modelled). */
  function NewKatana(effectiveDamage: real, effectiveSpeed: real): (k: Katana)
    ensures k.attackDamage == effectiveDamage
    ensures HitDamage(k) + HitDamage(k) == effectiveDamage
  {
    Katana(effectiveDamage)
  }

  /** The damage of one hit of the slash: half the attack damage. */
  function HitDamage(k: Katana): (d: real)
    ensures d * 2.0 == k.attackDamage
  {
    k.attackDamage / 2.0
  }

  /** An item stack holding a katana: its durability counters and its
      enchantments in the order the stack lists them. */
  datatype Stack = Stack(id: StackId, damage: int, maxDamage: int, enchantments: seq<Enchantment>)

  datatype Hand = MainHand | OffHand
  datatype ActionResult = Fail | Consume
  /** The result of starting to use the item, and the hand it asks the host
      to make active, if any.  The host's `setCurrentHand` decides whether
      that hand really becomes active. */
  datatype UseOutcome = UseOutcome(result: ActionResult, handRequest: Option<Hand>)

  /** Starting to charge: refused, without asking for any hand, when the stack
      has at most one point of durability left; otherwise it asks for the
      hand to become the user's active hand. */
  function Use(stack: Stack, hand: Hand): (r: UseOutcome)
    ensures r.result.Fail? <==> stack.maxDamage - stack.damage < 2
    ensures r.result.Fail? ==> r.handRequest == None
    ensures r.result.Consume? ==> r.handRequest == Some(hand) && stack.damage + 1 < stack.maxDamage
  {
    if stack.damage >= stack.maxDamage - 1 then UseOutcome(Fail, None)
    else UseOutcome(Consume, Some(hand))
  }

  /** The first slash enchantment among a stack's enchantments, if any. */
  function GetSlashEnchantment(encs: seq<Enchantment>): (r: Option<SlashEnchantment>)
    ensures r.None? <==> forall i :: 0 <= i < |encs| ==> !encs[i].Slash?
    ensures r.Some? ==> exists i :: 0 <= i < |encs| && encs[i] == Slash(r.value)
                                    && forall j :: 0 <= j < i ==> !encs[j].Slash?
    decreases |encs|
  {
    if |encs| == 0 then None
    else if encs[0].Slash? then Some(encs[0].slash)
    else
      var r := GetSlashEnchantment(encs[1..]);
      assert forall i :: 1 <= i < |encs| ==> encs[i] == encs[1..][i - 1];
      if r.Some? then
        var i :| 0 <= i < |encs[1..]| && encs[1..][i] == Slash(r.value)
                 && forall j :: 0 <= j < i ==> !encs[1..][j].Slash?;
        assert encs[i + 1] == Slash(r.value);
        assert forall j :: 0 <= j < i + 1 ==> !encs[j].Slash?;
        r
      else r
  }

  /** On a stack whose enchantments were attached under the compatibility
      rule, the lookup finds the one slash enchantment when there is one. */
  lemma {:induction false} SlashLookupIsUnique(encs: seq<Enchantment>, s: SlashEnchantment)
    requires SlashCount(encs) <= 1
    requires Slash(s) in encs
    ensures GetSlashEnchantment(encs) == Some(s)
    decreases |encs|
  {
    var r := GetSlashEnchantment(encs);
    var k :| 0 <= k < |encs| && encs[k] == Slash(s);
    assert r.Some?;
    var i :| 0 <= i < |encs| && encs[i] == Slash(r.value) && forall j :: 0 <= j < i ==> !encs[j].Slash?;
    if i != k {
      assert i < k;
      TwoSlashes(encs, i, k);
    }
  }

  lemma {:induction false} TwoSlashes(encs: seq<Enchantment>, i: nat, k: nat)
    requires i < k < |encs| && encs[i].Slash? && encs[k].Slash?
    ensures SlashCount(encs) >= 2
    decreases |encs|
  {
    var prefix := encs[..|encs| - 1];
    if k < |encs| - 1 {
      TwoSlashes(prefix, i, k);
    } else {
      OneSlash(prefix, i);
    }
  }

  lemma {:induction false} OneSlash(encs: seq<Enchantment>, i: nat)
    requires i < |encs| && encs[i].Slash?
    ensures SlashCount(encs) >= 1
    decreases |encs|
  {
    if i < |encs| - 1 {
      OneSlash(encs[..|encs| - 1], i);
    }
  }

  // ---------------------------------------------------------------------
  // Release

  datatype User = Player(id: PlayerId) | NonPlayer

  /** The world as the release sees it.  `distance` is the length of the line
      from the player to the ray's terminal point; `targetsAt(i)` is the
      hostile targets the box around the sample point after step `i` holds,
      in the host's order; `airBelowTerminal` tells whether the block under
      the terminal point is air. */
  datatype World = World(
    isClient: bool,
    terminal: Vec3,
    distance: real,
    targetsAt: nat -> seq<EntityId>,
    airBelowTerminal: bool)

  /** Ticks the item was held: the use cap minus the ticks left, in `int`. */
  function Elapsed(remainingUseTicks: int32): int32
  {
    Wrap32(MaxUseTime as int - remainingUseTicks as int)
  }

  /** Within the host's range of remaining ticks the subtraction is exact,
      and a charge qualifies once at most 71990 ticks remain. */
  lemma ElapsedCountsDown(remainingUseTicks: int32)
    requires 0 <= remainingUseTicks <= MaxUseTime
    ensures Elapsed(remainingUseTicks) as int == 72000 - remainingUseTicks as int
    ensures 0 <= Elapsed(remainingUseTicks) <= MaxUseTime
    ensures Elapsed(remainingUseTicks) >= MinChargeTicks <==> remainingUseTicks <= 71990
  {
  }

  /** The query results of the steps the sweep takes: one per pass of the
      loop `for (i = 0; i < distance; i++)`, in order. */
  function Boxes(w: World): (boxes: seq<seq<EntityId>>)
    ensures forall i: nat :: i < |boxes| <==> LoopCondition(i, w.distance)
    ensures forall i :: 0 <= i < |boxes| ==> boxes[i] == w.targetsAt(i)
  {
    var n := StepCount(w.distance);
    assert forall i: nat :: i < n <==> LoopCondition(i, w.distance) by {
      forall i: nat ensures i < n <==> LoopCondition(i, w.distance) {
        StepCountIsLoopBound(w.distance, i);
      }
    }
    seq(n, i requires 0 <= i => w.targetsAt(i))
  }

  /** Where the player lands: the terminal point, one block lower over air. */
  function TeleportTarget(terminal: Vec3, airBelow: bool): (p: Vec3)
    ensures p.x == terminal.x && p.z == terminal.z
    ensures airBelow ==> p.y == terminal.y - 1.0
    ensures !airBelow ==> p.y == terminal.y
  {
    var down := if airBelow then 1.0 else 0.0;
    Vec3(terminal.x, terminal.y - down, terminal.z)
  }

  /** The strike parameters of a slash by `player` with `stack`. */
  function SlashContext(k: Katana, stack: Stack, player: PlayerId): SweepContext
  {
    SweepContext(GetSlashEnchantment(stack.enchantments), HitDamage(k), player, stack.id)
  }

  /** The server's part of a slash around a given sweep trace: one durability
      point, the swoop (and the enchantment's sound), the sweep, then the
      teleport to `landing`. */
  function SlashTrace(ctx: SweepContext, sweep: seq<Effect>, landing: Vec3): seq<Effect>
  {
    Opening(ctx) + sweep + [Teleported(ctx.player, landing)]
  }

  /** The server's part of a slash by `player` with `stack` in world `w`. */
  function ServerSlash(k: Katana, stack: Stack, w: World, player: PlayerId): seq<Effect>
  {
    var ctx := SlashContext(k, stack, player);
    SlashTrace(ctx, SweepFold(Boxes(w), ctx).trace, TeleportTarget(w.terminal, w.airBelowTerminal))
  }

  /** Whether a release slashes at all: a player held the item long enough. */
  predicate Qualifies(user: User, remainingUseTicks: int32)
  {
    user.Player? && Elapsed(remainingUseTicks) >= MinChargeTicks
  }

  /** Releasing the charge.  Nothing happens for a user that is not a player
      or a charge shorter than the minimum; otherwise the server performs the
      slash and both sides set the cooldown and count the use. */
  function Release(k: Katana, stack: Stack, w: World, user: User, remainingUseTicks: int32): (r: seq<Effect>)
    ensures r == [] <==> !Qualifies(user, remainingUseTicks)
    ensures r != [] ==> |r| >= 2 && r[|r| - 2..] == [CooldownSet(user.id, CooldownTicks), StatIncremented(user.id)]
  {
    match user
    case NonPlayer => []
    case Player(p) =>
      if Elapsed(remainingUseTicks) < MinChargeTicks then []
      else
        (if w.isClient then [] else ServerSlash(k, stack, w, p))
        + [CooldownSet(p, CooldownTicks), StatIncremented(p)]
  }

  // ---------------------------------------------------------------------
  // Properties of a release

  predicate IsItemDamage(e: Effect) { e.ItemDamaged? }
  predicate IsCooldown(e: Effect) { e.CooldownSet? }
  predicate IsStat(e: Effect) { e.StatIncremented? }
  predicate IsTeleport(e: Effect) { e.Teleported? }

  /** Every durability call in `trace` takes exactly one point from `stack`. */
  predicate OnePointFrom(trace: seq<Effect>, stack: StackId)
  {
    forall i :: 0 <= i < |trace| && trace[i].ItemDamaged? ==> trace[i] == ItemDamaged(stack, 1)
  }

  /** The opening effects of a slash: a durability point and the swoop(s). */
  function Opening(ctx: SweepContext): seq<Effect>
  {
    [ItemDamaged(ctx.stack, 1), SoundPlayed(KatanaSwoop)]
    + (if ctx.enchantment.Some? then [SoundPlayed(ctx.enchantment.value.sound)] else [])
  }

  lemma OpeningStrikesNothing(ctx: SweepContext)
    ensures DamageEvents(Opening(ctx)) == [] && HookEvents(Opening(ctx)) == []
  {
    DamageEventsOfNone(Opening(ctx));
    HookEventsOfNone(Opening(ctx));
  }

  lemma OpeningCounts(ctx: SweepContext)
    ensures Count(Opening(ctx), IsItemDamage) == 1
    ensures Count(Opening(ctx), IsTeleport) == 0
    ensures Count(Opening(ctx), IsCooldown) == 0
    ensures Count(Opening(ctx), IsStat) == 0
    ensures OnePointFrom(Opening(ctx), ctx.stack)
  {
    var o := Opening(ctx);
    var a, b := o[..2], o[2..];
    assert o == a + b;
    assert a[..1][..0] == [];
    CountAppend(a, b, IsItemDamage);
  }

  /** Around any sweep trace that issues only feedback, damage and callback
      runs, the server's part of a slash takes one durability point from the
      swung stack and teleports once, and sets no cooldown and counts no use. */
  lemma SlashTraceCounts(ctx: SweepContext, sweep: seq<Effect>, landing: Vec3)
    requires SweepOnly(sweep)
    ensures Count(SlashTrace(ctx, sweep, landing), IsItemDamage) == 1
    ensures OnePointFrom(SlashTrace(ctx, sweep, landing), ctx.stack)
    ensures Count(SlashTrace(ctx, sweep, landing), IsTeleport) == 1
    ensures Count(SlashTrace(ctx, sweep, landing), IsCooldown) == 0
    ensures Count(SlashTrace(ctx, sweep, landing), IsStat) == 0
  {
    var a := Opening(ctx);
    var d := [Teleported(ctx.player, landing)];
    OpeningCounts(ctx);
    CountSingle(d[0], IsItemDamage);
    CountSingle(d[0], IsTeleport);
    CountSingle(d[0], IsCooldown);
    CountSingle(d[0], IsStat);
    CountAppend3(a, sweep, d, IsItemDamage);
    CountAppend3(a, sweep, d, IsTeleport);
    CountAppend3(a, sweep, d, IsCooldown);
    CountAppend3(a, sweep, d, IsStat);
  }

  /** The damage and callback runs of the server's part of a slash are those
      of its sweep. */
  lemma SlashTraceStrikes(ctx: SweepContext, sweep: seq<Effect>, landing: Vec3)
    ensures DamageEvents(SlashTrace(ctx, sweep, landing)) == DamageEvents(sweep)
    ensures HookEvents(SlashTrace(ctx, sweep, landing)) == HookEvents(sweep)
  {
    var a := Opening(ctx);
    var d := [Teleported(ctx.player, landing)];
    OpeningStrikesNothing(ctx);
    DamageEventsAppend(a + sweep, d);
    DamageEventsAppend(a, sweep);
    HookEventsAppend(a + sweep, d);
    HookEventsAppend(a, sweep);
    DamageEventsOfNone(d);
    HookEventsOfNone(d);
  }

  lemma ServerSlashCounts(k: Katana, stack: Stack, w: World, player: PlayerId)
    ensures Count(ServerSlash(k, stack, w, player), IsItemDamage) == 1
    ensures OnePointFrom(ServerSlash(k, stack, w, player), stack.id)
    ensures Count(ServerSlash(k, stack, w, player), IsTeleport) == 1
    ensures Count(ServerSlash(k, stack, w, player), IsCooldown) == 0
    ensures Count(ServerSlash(k, stack, w, player), IsStat) == 0
  {
    var ctx := SlashContext(k, stack, player);
    SweepOrder(Boxes(w), ctx);
    SlashTraceCounts(ctx, SweepFold(Boxes(w), ctx).trace, TeleportTarget(w.terminal, w.airBelowTerminal));
  }

  /** Appending the cooldown and the use count to effects that have neither. */
  lemma BookkeepingTail(head: seq<Effect>, p: PlayerId, stack: StackId)
    requires Count(head, IsCooldown) == 0 && Count(head, IsStat) == 0
    ensures var r := head + [CooldownSet(p, CooldownTicks), StatIncremented(p)];
      && Count(r, IsCooldown) == 1 && Count(r, IsStat) == 1
      && (OnePointFrom(head, stack) ==> OnePointFrom(r, stack))
      && Count(r, IsItemDamage) == Count(head, IsItemDamage)
      && Count(r, IsTeleport) == Count(head, IsTeleport)
      && (forall i :: 0 <= i < |r| && r[i].CooldownSet? ==> r[i].ticks == 200)
  {
    var tail := [CooldownSet(p, CooldownTicks), StatIncremented(p)];
    var r := head + tail;
    assert tail[..1] == [CooldownSet(p, CooldownTicks)];
    assert tail[..1][..0] == [];
    CountAppend(head, tail, IsCooldown);
    CountAppend(head, tail, IsStat);
    CountAppend(head, tail, IsItemDamage);
    CountAppend(head, tail, IsTeleport);
    forall i | 0 <= i < |r| && r[i].CooldownSet? ensures r[i].ticks == 200 {
      if i >= |head| {
        assert r[i] == tail[i - |head|];
      }
    }
  }

  /** A qualifying release sets the 200-tick cooldown once and counts the use
      once on either side; the durability point, taken from the swung stack,
      and the teleport happen once on the server and never on the client. */
  lemma ReleaseBookkeeping(k: Katana, stack: Stack, w: World, user: User, remainingUseTicks: int32)
    requires Qualifies(user, remainingUseTicks)
    ensures var r := Release(k, stack, w, user, remainingUseTicks);
      && Count(r, IsCooldown) == 1 && Count(r, IsStat) == 1
      && Count(r, IsItemDamage) == (if w.isClient then 0 else 1)
      && OnePointFrom(r, stack.id)
      && Count(r, IsTeleport) == (if w.isClient then 0 else 1)
      && (forall i :: 0 <= i < |r| && r[i].CooldownSet? ==> r[i].ticks == 200)
  {
    var p := user.id;
    var head := if w.isClient then [] else ServerSlash(k, stack, w, p);
    if !w.isClient {
      ServerSlashCounts(k, stack, w, p);
    }
    BookkeepingTail(head, p, stack.id);
  }

  /** On the client a qualifying release only sets the cooldown and counts
      the use. */
  lemma ClientReleaseOnlyBookkeeping(k: Katana, stack: Stack, w: World, user: User, remainingUseTicks: int32)
    requires Qualifies(user, remainingUseTicks) && w.isClient
    ensures Release(k, stack, w, user, remainingUseTicks)
            == [CooldownSet(user.id, 200), StatIncremented(user.id)]
  {
  }

  /** The damage and the callback runs of the server's part of a slash are
      those of its sweep. */
  lemma ServerSlashStrikes(k: Katana, stack: Stack, w: World, p: PlayerId)
    ensures var ctx := SlashContext(k, stack, p);
      var hit := SweepFold(Boxes(w), ctx).hit;
      && DamageEvents(ServerSlash(k, stack, w, p)) == Damages(ctx, hit)
      && HookEvents(ServerSlash(k, stack, w, p)) == HookRuns(ctx, hit)
  {
    var ctx := SlashContext(k, stack, p);
    SweepDamage(Boxes(w), ctx);
    SweepHooks(Boxes(w), ctx);
    SlashTraceStrikes(ctx, SweepFold(Boxes(w), ctx).trace, TeleportTarget(w.terminal, w.airBelowTerminal));
  }

  lemma TailStrikesNothing(head: seq<Effect>, p: PlayerId)
    ensures DamageEvents(head + [CooldownSet(p, CooldownTicks), StatIncremented(p)]) == DamageEvents(head)
    ensures HookEvents(head + [CooldownSet(p, CooldownTicks), StatIncremented(p)]) == HookEvents(head)
  {
    var tail := [CooldownSet(p, CooldownTicks), StatIncremented(p)];
    DamageEventsAppend(head, tail);
    HookEventsAppend(head, tail);
    DamageEventsOfNone(tail);
    HookEventsOfNone(tail);
  }

  /** The damage and the callback runs of a server-side release are those of
      its sweep over the world's query results: one hit of half the attack
      damage per struck id, and the struck ids are exactly the ids the steps'
      queries returned. */
  lemma ReleaseStrikes(k: Katana, stack: Stack, w: World, p: PlayerId, remainingUseTicks: int32)
    requires Qualifies(Player(p), remainingUseTicks) && !w.isClient
    ensures var r := Release(k, stack, w, Player(p), remainingUseTicks);
      var ctx := SlashContext(k, stack, p);
      var hit := SweepFold(Boxes(w), ctx).hit;
      && Elements(hit) == UnionOf(Boxes(w))
      && DamageEvents(r) == Damages(ctx, hit)
      && HookEvents(r) == HookRuns(ctx, hit)
      && (forall i :: 0 <= i < |DamageEvents(r)| ==> DamageEvents(r)[i].amount * 2.0 == k.attackDamage)
  {
    var ctx := SlashContext(k, stack, p);
    var server := ServerSlash(k, stack, w, p);
    assert Release(k, stack, w, Player(p), remainingUseTicks)
      == server + [CooldownSet(p, CooldownTicks), StatIncremented(p)];
    SweepHits(Boxes(w), ctx);
    ServerSlashStrikes(k, stack, w, p);
    TailStrikesNothing(server, p);
  }

  /** The only teleport of the server's part of a slash is its last effect,
      which moves the player to the landing point. */
  lemma SlashTraceLanding(ctx: SweepContext, sweep: seq<Effect>, landing: Vec3)
    requires SweepOnly(sweep)
    ensures var t := SlashTrace(ctx, sweep, landing);
      && t[|t| - 1] == Teleported(ctx.player, landing)
      && forall j :: 0 <= j < |t| && t[j].Teleported? ==> j == |t| - 1
  {
  }

  /** On the server a qualifying release teleports the player once, to the
      terminal point (one block lower over air), right before the cooldown. */
  lemma ReleaseLanding(k: Katana, stack: Stack, w: World, p: PlayerId, remainingUseTicks: int32)
    requires Qualifies(Player(p), remainingUseTicks) && !w.isClient
    ensures var r := Release(k, stack, w, Player(p), remainingUseTicks);
      && |r| >= 3
      && r[|r| - 3] == Teleported(p, TeleportTarget(w.terminal, w.airBelowTerminal))
      && forall j :: 0 <= j < |r| && r[j].Teleported? ==> j == |r| - 3
  {
    var ctx := SlashContext(k, stack, p);
    var landing := TeleportTarget(w.terminal, w.airBelowTerminal);
    var server := ServerSlash(k, stack, w, p);
    var tail := [CooldownSet(p, CooldownTicks), StatIncremented(p)];
    var r := Release(k, stack, w, Player(p), remainingUseTicks);
    assert r == server + tail;
    SweepOrder(Boxes(w), ctx);
    SlashTraceLanding(ctx, SweepFold(Boxes(w), ctx).trace, landing);
    forall j | 0 <= j < |r| && r[j].Teleported? ensures j == |r| - 3 {
      if j < |server| {
        assert r[j] == server[j];
      }
    }
  }

  /** When the terminal point is at the player's position the sweep takes no
      step and strikes nothing, but the player is still teleported. */
  lemma ZeroDistanceStillTeleports(k: Katana, stack: Stack, w: World, p: PlayerId, remainingUseTicks: int32)
    requires Qualifies(Player(p), remainingUseTicks) && !w.isClient && w.distance == 0.0
    ensures DamageEvents(Release(k, stack, w, Player(p), remainingUseTicks)) == []
    ensures Teleported(p, TeleportTarget(w.terminal, w.airBelowTerminal))
            in Release(k, stack, w, Player(p), remainingUseTicks)
  {
    ReleaseStrikes(k, stack, w, p, remainingUseTicks);
    assert Boxes(w) == [];
  }
}

=== FILE: slash_enchantment.dfy ===
/** The slash enchantment: an optional capability on a katana that adds a
    sound, a particle and a hit callback to the charged slash, and that
    refuses to share a stack with another slash enchantment. */
module KatanaSlash {
  import opened Effects

  /** The hit callback a slash enchantment carries.  `NoEffect` is the
      callback installed by the two-argument constructor; a concrete callback
      runs host code whose effects are not modelled, so it is named by an id
      and each invocation is recorded as one `ExecutorRan` effect. */
  datatype HitExecutor = NoEffect | Executor(id: nat)

  datatype SlashEnchantment = SlashEnchantment(sound: Sound, particle: Particle, onHit: HitExecutor)

  /** Any enchantment a stack can carry: a slash enchantment or another one. */
  datatype Enchantment = Slash(slash: SlashEnchantment) | Other(name: string)

  /** The three-argument constructor: the getters report what was passed. */
  function WithExecutor(sound: Sound, particle: Particle, onHit: HitExecutor): (e: SlashEnchantment)
    ensures e.sound == sound && e.particle == particle
    ensures forall target, source, stack :: OnHit(e, target, source, stack) ==
              (if onHit.Executor? then [ExecutorRan(onHit.id, target, source, stack)] else [])
  {
    SlashEnchantment(sound, particle, onHit)
  }

  /** The two-argument constructor installs a callback that does nothing. */
  function Plain(sound: Sound, particle: Particle): (e: SlashEnchantment)
    ensures e.sound == sound && e.particle == particle
    ensures forall target, source, stack :: OnHit(e, target, source, stack) == []
  {
    WithExecutor(sound, particle, NoEffect)
  }

  /** Runs the stored callback once with the given target, source and stack. */
  function OnHit(e: SlashEnchantment, target: EntityId, source: PlayerId, stack: StackId): (r: seq<Effect>)
    ensures |r| <= 1
    ensures |r| == 1 <==> e.onHit.Executor?
    ensures forall ev | ev in r :: ev.ExecutorRan? && ev.executor == e.onHit.id
                                   && ev.victim == target && ev.source == source && ev.item == stack
  {
    match e.onHit
    case NoEffect => []
    case Executor(id) => [ExecutorRan(id, target, source, stack)]
  }

  /** The slash enchantment's own `canAccept`: whether it lets `other` share
      its stack. */
  function CanAccept(e: SlashEnchantment, other: Enchantment): (r: bool)
  {
    !other.Slash?
  }

  /** The host's compatibility rule for enchantments other than a slash
      enchantment: whether the enchantment named by the first argument lets
      the second share its stack.  Vanilla enchantments override it (a damage
      enchantment refuses the other damage enchantments), so it is a parameter. */
  type HostRule = (string, Enchantment) -> bool

  /** The compatibility rule for any enchantment: a slash enchantment decides
      by `CanAccept`, any other by the host's rule. */
  function Accepts(e: Enchantment, other: Enchantment, rule: HostRule): bool
  {
    match e
    case Slash(s) => CanAccept(s, other)
    case Other(name) => rule(name, other)
  }

  /** Attaching `e` to a stack: it is added only when it and every enchantment
      already present accept each other.  Whatever the host's rule for other
      enchantments, a slash enchantment joins only a stack without one. */
  function Attach(encs: seq<Enchantment>, e: Enchantment, rule: HostRule): (r: seq<Enchantment>)
    ensures r == encs || r == encs + [e]
    ensures r == encs + [e] <==>
              forall i :: 0 <= i < |encs| ==> Accepts(encs[i], e, rule) && Accepts(e, encs[i], rule)
    ensures e.Slash? && r != encs ==> forall i :: 0 <= i < |encs| ==> !encs[i].Slash?
  {
    if forall i :: 0 <= i < |encs| ==> Accepts(encs[i], e, rule) && Accepts(e, encs[i], rule) then encs + [e]
    else encs
  }

  /** Attaching each of `adds` in turn, starting from `encs`. */
  function AttachAll(encs: seq<Enchantment>, adds: seq<Enchantment>, rule: HostRule): seq<Enchantment>
    decreases |adds|
  {
    if |adds| == 0 then encs
    else Attach(AttachAll(encs, adds[..|adds| - 1], rule), adds[|adds| - 1], rule)
  }

  function SlashCount(encs: seq<Enchantment>): nat
  {
    if |encs| == 0 then 0
    else SlashCount(encs[..|encs| - 1]) + (if encs[|encs| - 1].Slash? then 1 else 0)
  }

  /** `CanAccept` refuses exactly the slash enchantments, itself included. */
  lemma CanAcceptRefusesSlashOnly(e: SlashEnchantment, other: Enchantment)
    ensures CanAccept(e, other) <==> !other.Slash?
    ensures !CanAccept(e, Slash(e))
  {
  }

  lemma {:induction false} SlashCountWitness(encs: seq<Enchantment>) returns (i: nat)
    requires SlashCount(encs) > 0
    ensures i < |encs| && encs[i].Slash?
    decreases |encs|
  {
    if encs[|encs| - 1].Slash? {
      i := |encs| - 1;
    } else {
      i := SlashCountWitness(encs[..|encs| - 1]);
    }
  }

  /** A slash enchantment is never attached to a stack that already holds one. */
  lemma {:induction false} SecondSlashRejected(encs: seq<Enchantment>, s: SlashEnchantment, rule: HostRule)
    requires SlashCount(encs) > 0
    ensures Attach(encs, Slash(s), rule) == encs
  {
    var i := SlashCountWitness(encs);
    assert !Accepts(encs[i], Slash(s), rule);
  }

  lemma {:induction false} SlashCountAppend(encs: seq<Enchantment>, e: Enchantment)
    ensures SlashCount(encs + [e]) == SlashCount(encs) + (if e.Slash? then 1 else 0)
  {
    assert (encs + [e])[..|encs + [e]| - 1] == encs;
  }

  /** Starting from a stack with at most one slash enchantment, attaching any
      sequence of enchantments under any host rule leaves at most one. */
  lemma {:induction false} AtMostOneSlash(encs: seq<Enchantment>, adds: seq<Enchantment>, rule: HostRule)
    requires SlashCount(encs) <= 1
    ensures SlashCount(AttachAll(encs, adds, rule)) <= 1
    decreases |adds|
  {
    if |adds| > 0 {
      var before := AttachAll(encs, adds[..|adds| - 1], rule);
      var e := adds[|adds| - 1];
      AtMostOneSlash(encs, adds[..|adds| - 1], rule);
      if Attach(before, e, rule) != before {
        SlashCountAppend(before, e);
        if e.Slash? && SlashCount(before) > 0 {
          SecondSlashRejected(before, e.slash, rule);
        }
      }
    }
  }
}

=== FILE: sweep.dfy ===
/** The slash's sweep: one step per whole block between the player and the
    ray's terminal point, a box query for hostile targets at each step, and
    at most one strike per target per sweep.  The box query is the world's:
    it arrives here as one sequence of target ids per step, in the host's
    order, before the "not yet hit" exclusion is applied. */
module Sweep {
  import opened Effects
  import opened KatanaSlash

  /** What every strike of one sweep shares: the stack's slash enchantment
      (looked up once per release), the damage per hit, the attacking player
      and the stack that is swung. */
  datatype SweepContext = SweepContext(
    enchantment: Option<SlashEnchantment>, damage: real, player: PlayerId, stack: StackId)

  /** The ids struck so far, in strike order, and the effects issued so far. */
  datatype SweepState = SweepState(hit: seq<EntityId>, trace: seq<Effect>)

  predicate NoDup<T(==)>(s: seq<T>)
  {
    forall i, j :: 0 <= i < j < |s| ==> s[i] != s[j]
  }

  /** Every per-step query result lists each target once. */
  predicate DistinctBoxes(boxes: seq<seq<EntityId>>)
  {
    forall k :: 0 <= k < |boxes| ==> NoDup(boxes[k])
  }

  function Elements<T>(s: seq<T>): set<T>
  {
    set x | x in s
  }

  /** Every id that some step's query returns. */
  function UnionOf(boxes: seq<seq<EntityId>>): set<EntityId>
  {
    if |boxes| == 0 then {}
    else UnionOf(boxes[..|boxes| - 1]) + Elements(boxes[|boxes| - 1])
  }

  /** The sweep loop's condition `i < distance`, with `i` widened to a real. */
  predicate LoopCondition(i: nat, distance: real)
  {
    (i as real) < distance
  }

  /** Number of passes of a loop `for (i = 0; i < distance; i++)` over a
      non-negative distance: the distance rounded up. */
  function StepCount(distance: real): (n: nat)
    ensures distance <= n as real
    ensures n == 0 || ((n - 1) as real) < distance
  {
    if distance <= 0.0 then 0
    else if distance.Floor as real == distance then distance.Floor
    else distance.Floor + 1
  }

  /** The loop counter `i` takes exactly the natural values below the distance. */
  lemma StepCountIsLoopBound(distance: real, i: nat)
    ensures i < StepCount(distance) <==> (i as real) < distance
  {
    var n := StepCount(distance);
    if i < n {
      assert (i as real) <= (n - 1) as real;
    }
  }

  /** A query result after the exclusion of ids already struck, in the
      host's order. */
  function Fresh(box: seq<EntityId>, hit: seq<EntityId>): (r: seq<EntityId>)
    ensures forall x :: x in r <==> x in box && x !in hit
    ensures NoDup(box) ==> NoDup(r)
    decreases |box|
  {
    if |box| == 0 then []
    else
      var prefix := box[..|box| - 1];
      var x := box[|box| - 1];
      assert forall y :: y in box <==> y in prefix || y == x;
      assert NoDup(box) ==> NoDup(prefix) && x !in prefix;
      var r := Fresh(prefix, hit);
      if x in hit then r else r + [x]
  }

  /** Whether a strike runs a callback that leaves an effect behind. */
  predicate Hooked(ctx: SweepContext)
  {
    ctx.enchantment.Some? && ctx.enchantment.value.onHit.Executor?
  }

  /** The callback of the slash enchantment, when there is one. */
  function HookEffects(ctx: SweepContext, target: EntityId): seq<Effect>
  {
    match ctx.enchantment
    case None => []
    case Some(e) => OnHit(e, target, ctx.player, ctx.stack)
  }

  /** One strike: damage first, then the callback, then feedback. */
  function StrikeEffects(ctx: SweepContext, target: EntityId): seq<Effect>
  {
    [EntityDamaged(target, ctx.player, ctx.damage)]
    + HookEffects(ctx, target)
    + [SoundPlayed(KatanaSwoop), SoundPlayed(GenericExplode), ParticlesSpawned(Portal)]
  }

  /** Particles issued at every step, whether or not anything is struck. */
  function StepEffects(ctx: SweepContext): seq<Effect>
  {
    [ParticlesSpawned(Crit)]
    + (if ctx.enchantment.Some? then [ParticlesSpawned(ctx.enchantment.value.particle)] else [])
  }

  /** Striking each of `found` in order. */
  function StrikeAll(st: SweepState, found: seq<EntityId>, ctx: SweepContext): SweepState
    decreases |found|
  {
    if |found| == 0 then st
    else
      var before := StrikeAll(st, found[..|found| - 1], ctx);
      var t := found[|found| - 1];
      SweepState(before.hit + [t], before.trace + StrikeEffects(ctx, t))
  }

  /** One pass of the loop body, given that step's query result. */
  function Step(st: SweepState, box: seq<EntityId>, ctx: SweepContext): SweepState
  {
    StrikeAll(SweepState(st.hit, st.trace + StepEffects(ctx)), Fresh(box, st.hit), ctx)
  }

  /** The whole sweep, one `Step` per query result, from an empty hit list. */
  function SweepFold(boxes: seq<seq<EntityId>>, ctx: SweepContext): SweepState
    decreases |boxes|
  {
    if |boxes| == 0 then SweepState([], [])
    else Step(SweepFold(boxes[..|boxes| - 1], ctx), boxes[|boxes| - 1], ctx)
  }

  // ---------------------------------------------------------------------
  // Projections of a trace

  function DamageEvents(trace: seq<Effect>): seq<Effect>
    decreases |trace|
  {
    if |trace| == 0 then []
    else
      var e := trace[|trace| - 1];
      DamageEvents(trace[..|trace| - 1]) + (if e.EntityDamaged? then [e] else [])
  }

  function HookEvents(trace: seq<Effect>): seq<Effect>
    decreases |trace|
  {
    if |trace| == 0 then []
    else
      var e := trace[|trace| - 1];
      HookEvents(trace[..|trace| - 1]) + (if e.ExecutorRan? then [e] else [])
  }

  /** One damage effect per target, in order, each of the sweep's damage. */
  function Damages(ctx: SweepContext, targets: seq<EntityId>): (r: seq<Effect>)
    ensures |r| == |targets|
    ensures forall i :: 0 <= i < |r| ==> r[i] == EntityDamaged(targets[i], ctx.player, ctx.damage)
    decreases |targets|
  {
    if |targets| == 0 then []
    else Damages(ctx, targets[..|targets| - 1]) + [EntityDamaged(targets[|targets| - 1], ctx.player, ctx.damage)]
  }

  /** One callback run per target when the callback has an effect, else none. */
  function HookRuns(ctx: SweepContext, targets: seq<EntityId>): (r: seq<Effect>)
    ensures |r| == if Hooked(ctx) then |targets| else 0
    ensures Hooked(ctx) ==> forall i :: 0 <= i < |r| ==>
              r[i] == ExecutorRan(ctx.enchantment.value.onHit.id, targets[i], ctx.player, ctx.stack)
    decreases |targets|
  {
    if |targets| == 0 || !Hooked(ctx) then []
    else
      var t := targets[|targets| - 1];
      HookRuns(ctx, targets[..|targets| - 1])
      + [ExecutorRan(ctx.enchantment.value.onHit.id, t, ctx.player, ctx.stack)]
  }

  /** Every callback run directly follows the damage of the same target. */
  predicate HookFollowsDamage(trace: seq<Effect>)
  {
    forall j :: 0 <= j < |trace| && trace[j].ExecutorRan? ==>
      0 < j && trace[j - 1].EntityDamaged? && trace[j - 1].target == trace[j].victim
  }

  /** A sweep issues feedback, damage and callback runs, and nothing else. */
  predicate SweepOnly(trace: seq<Effect>)
  {
    forall j :: 0 <= j < |trace| ==>
      trace[j].SoundPlayed? || trace[j].ParticlesSpawned? || trace[j].EntityDamaged? || trace[j].ExecutorRan?
  }

  // ---------------------------------------------------------------------
  // Lemmas about the projections

  lemma {:induction false} DamageEventsAppend(a: seq<Effect>, b: seq<Effect>)
    ensures DamageEvents(a + b) == DamageEvents(a) + DamageEvents(b)
    decreases |b|
  {
    if |b| == 0 {
      assert a + b == a;
    } else {
      assert (a + b)[..|a + b| - 1] == a + b[..|b| - 1];
      DamageEventsAppend(a, b[..|b| - 1]);
    }
  }

  lemma {:induction false} HookEventsAppend(a: seq<Effect>, b: seq<Effect>)
    ensures HookEvents(a + b) == HookEvents(a) + HookEvents(b)
    decreases |b|
  {
    if |b| == 0 {
      assert a + b == a;
    } else {
      assert (a + b)[..|a + b| - 1] == a + b[..|b| - 1];
      HookEventsAppend(a, b[..|b| - 1]);
    }
  }

  lemma {:induction false} DamageEventsOfNone(trace: seq<Effect>)
    requires forall j :: 0 <= j < |trace| ==> !trace[j].EntityDamaged?
    ensures DamageEvents(trace) == []
    decreases |trace|
  {
    if |trace| > 0 {
      DamageEventsOfNone(trace[..|trace| - 1]);
    }
  }

  lemma {:induction false} HookEventsOfNone(trace: seq<Effect>)
    requires forall j :: 0 <= j < |trace| ==> !trace[j].ExecutorRan?
    ensures HookEvents(trace) == []
    decreases |trace|
  {
    if |trace| > 0 {
      HookEventsOfNone(trace[..|trace| - 1]);
    }
  }

  lemma HookFollowsDamageAppend(a: seq<Effect>, b: seq<Effect>)
    requires HookFollowsDamage(a) && HookFollowsDamage(b)
    requires |b| > 0 ==> !b[0].ExecutorRan?
    ensures HookFollowsDamage(a + b)
  {
    var ab := a + b;
    forall j | 0 <= j < |ab| && ab[j].ExecutorRan?
      ensures 0 < j && ab[j - 1].EntityDamaged? && ab[j - 1].target == ab[j].victim
    {
      if j >= |a| {
        assert ab[j] == b[j - |a|];
        assert ab[j - 1] == b[j - 1 - |a|];
      } else {
        assert ab[j] == a[j] && ab[j - 1] == a[j - 1];
      }
    }
  }

  lemma SweepOnlyAppend(a: seq<Effect>, b: seq<Effect>)
    requires SweepOnly(a) && SweepOnly(b)
    ensures SweepOnly(a + b)
  {
    var ab := a + b;
    forall j | 0 <= j < |ab|
      ensures ab[j].SoundPlayed? || ab[j].ParticlesSpawned? || ab[j].EntityDamaged? || ab[j].ExecutorRan?
    {
      if j >= |a| {
        assert ab[j] == b[j - |a|];
      } else {
        assert ab[j] == a[j];
      }
    }
  }

  lemma DamagesAppend(ctx: SweepContext, a: seq<EntityId>, b: seq<EntityId>)
    ensures Damages(ctx, a + b) == Damages(ctx, a) + Damages(ctx, b)
  {
  }

  lemma HookRunsAppend(ctx: SweepContext, a: seq<EntityId>, b: seq<EntityId>)
    ensures HookRuns(ctx, a + b) == HookRuns(ctx, a) + HookRuns(ctx, b)
  {
  }

  // ---------------------------------------------------------------------
  // One strike, one step

  lemma StrikeDamageEvents(ctx: SweepContext, t: EntityId)
    ensures DamageEvents(StrikeEffects(ctx, t)) == Damages(ctx, [t])
  {
    var head := [EntityDamaged(t, ctx.player, ctx.damage)];
    var rest := HookEffects(ctx, t)
      + [SoundPlayed(KatanaSwoop), SoundPlayed(GenericExplode), ParticlesSpawned(Portal)];
    assert StrikeEffects(ctx, t) == head + rest;
    DamageEventsAppend(head, rest);
    DamageEventsOfNone(rest);
    assert head[..0] == [];
  }

  lemma StrikeHookEvents(ctx: SweepContext, t: EntityId)
    ensures HookEvents(StrikeEffects(ctx, t)) == HookRuns(ctx, [t])
  {
    var head := [EntityDamaged(t, ctx.player, ctx.damage)];
    var hook := HookEffects(ctx, t);
    var tail := [SoundPlayed(KatanaSwoop), SoundPlayed(GenericExplode), ParticlesSpawned(Portal)];
    assert StrikeEffects(ctx, t) == (head + hook) + tail;
    HookEventsAppend(head + hook, tail);
    HookEventsAppend(head, hook);
    HookEventsOfNone(tail);
    HookEventsOfNone(head);
    if Hooked(ctx) {
      assert hook[..0] == [];
      assert HookEvents(hook) == hook;
    } else {
      assert hook == [];
    }
  }

  lemma StrikeOrder(ctx: SweepContext, t: EntityId)
    ensures HookFollowsDamage(StrikeEffects(ctx, t))
    ensures SweepOnly(StrikeEffects(ctx, t))
    ensures StrikeEffects(ctx, t)[0].EntityDamaged?
  {
  }

  lemma {:induction false} StrikeAllHit(st: SweepState, found: seq<EntityId>, ctx: SweepContext)
    ensures StrikeAll(st, found, ctx).hit == st.hit + found
    decreases |found|
  {
    if |found| == 0 {
      assert st.hit + found == st.hit;
    } else {
      StrikeAllHit(st, found[..|found| - 1], ctx);
      assert found == found[..|found| - 1] + [found[|found| - 1]];
    }
  }

  lemma {:induction false} StrikeAllDamage(st: SweepState, found: seq<EntityId>, ctx: SweepContext)
    ensures DamageEvents(StrikeAll(st, found, ctx).trace) == DamageEvents(st.trace) + Damages(ctx, found)
    decreases |found|
  {
    if |found| == 0 {
      assert Damages(ctx, found) == [];
    } else {
      var prefix := found[..|found| - 1];
      var t := found[|found| - 1];
      StrikeAllDamage(st, prefix, ctx);
      DamageEventsAppend(StrikeAll(st, prefix, ctx).trace, StrikeEffects(ctx, t));
      StrikeDamageEvents(ctx, t);
      assert found == prefix + [t];
      DamagesAppend(ctx, prefix, [t]);
    }
  }

  lemma {:induction false} StrikeAllHooks(st: SweepState, found: seq<EntityId>, ctx: SweepContext)
    ensures HookEvents(StrikeAll(st, found, ctx).trace) == HookEvents(st.trace) + HookRuns(ctx, found)
    decreases |found|
  {
    if |found| == 0 {
      assert HookRuns(ctx, found) == [];
    } else {
      var prefix := found[..|found| - 1];
      var t := found[|found| - 1];
      StrikeAllHooks(st, prefix, ctx);
      HookEventsAppend(StrikeAll(st, prefix, ctx).trace, StrikeEffects(ctx, t));
      StrikeHookEvents(ctx, t);
      assert found == prefix + [t];
      HookRunsAppend(ctx, prefix, [t]);
    }
  }

  lemma {:induction false} StrikeAllOrder(st: SweepState, found: seq<EntityId>, ctx: SweepContext)
    requires HookFollowsDamage(st.trace) && SweepOnly(st.trace)
    ensures HookFollowsDamage(StrikeAll(st, found, ctx).trace)
    ensures SweepOnly(StrikeAll(st, found, ctx).trace)
    decreases |found|
  {
    if |found| > 0 {
      var prefix := found[..|found| - 1];
      var t := found[|found| - 1];
      StrikeAllOrder(st, prefix, ctx);
      StrikeOrder(ctx, t);
      HookFollowsDamageAppend(StrikeAll(st, prefix, ctx).trace, StrikeEffects(ctx, t));
      SweepOnlyAppend(StrikeAll(st, prefix, ctx).trace, StrikeEffects(ctx, t));
    }
  }

  lemma StepEffectsShape(ctx: SweepContext)
    ensures DamageEvents(StepEffects(ctx)) == []
    ensures HookEvents(StepEffects(ctx)) == []
    ensures HookFollowsDamage(StepEffects(ctx))
    ensures SweepOnly(StepEffects(ctx))
    ensures !StepEffects(ctx)[0].ExecutorRan?
  {
    DamageEventsOfNone(StepEffects(ctx));
    HookEventsOfNone(StepEffects(ctx));
  }

  /** The trace of the step before its strikes. */
  function Opened(st: SweepState, ctx: SweepContext): SweepState
  {
    SweepState(st.hit, st.trace + StepEffects(ctx))
  }

  lemma StepDamage(st: SweepState, box: seq<EntityId>, ctx: SweepContext)
    ensures DamageEvents(Step(st, box, ctx).trace) == DamageEvents(st.trace) + Damages(ctx, Fresh(box, st.hit))
  {
    StepEffectsShape(ctx);
    DamageEventsAppend(st.trace, StepEffects(ctx));
    StrikeAllDamage(Opened(st, ctx), Fresh(box, st.hit), ctx);
  }

  lemma StepHooks(st: SweepState, box: seq<EntityId>, ctx: SweepContext)
    ensures HookEvents(Step(st, box, ctx).trace) == HookEvents(st.trace) + HookRuns(ctx, Fresh(box, st.hit))
  {
    StepEffectsShape(ctx);
    HookEventsAppend(st.trace, StepEffects(ctx));
    StrikeAllHooks(Opened(st, ctx), Fresh(box, st.hit), ctx);
  }

  lemma StepOrder(st: SweepState, box: seq<EntityId>, ctx: SweepContext)
    requires HookFollowsDamage(st.trace) && SweepOnly(st.trace)
    ensures HookFollowsDamage(Step(st, box, ctx).trace)
    ensures SweepOnly(Step(st, box, ctx).trace)
  {
    StepEffectsShape(ctx);
    HookFollowsDamageAppend(st.trace, StepEffects(ctx));
    SweepOnlyAppend(st.trace, StepEffects(ctx));
    StrikeAllOrder(Opened(st, ctx), Fresh(box, st.hit), ctx);
  }

  lemma NoDupAppend(a: seq<EntityId>, b: seq<EntityId>)
    requires NoDup(a) && NoDup(b)
    requires forall x :: x in b ==> x !in a
    ensures NoDup(a + b)
  {
    var ab := a + b;
    forall i, j | 0 <= i < j < |ab|
      ensures ab[i] != ab[j]
    {
      if j < |a| {
        assert ab[i] == a[i] && ab[j] == a[j];
      } else if i >= |a| {
        assert ab[i] == b[i - |a|] && ab[j] == b[j - |a|];
      } else {
        assert ab[i] == a[i] && ab[j] == b[j - |a|];
        assert b[j - |a|] in b;
      }
    }
  }

  // ---------------------------------------------------------------------
  // The sweep

  /** The struck ids are exactly the ids some step's query returned, and no
      id is struck twice when each query lists an id at most once. */
  lemma {:induction false} SweepHits(boxes: seq<seq<EntityId>>, ctx: SweepContext)
    ensures Elements(SweepFold(boxes, ctx).hit) == UnionOf(boxes)
    ensures DistinctBoxes(boxes) ==> NoDup(SweepFold(boxes, ctx).hit)
    decreases |boxes|
  {
    if |boxes| > 0 {
      var prefix := boxes[..|boxes| - 1];
      var box := boxes[|boxes| - 1];
      var st := SweepFold(prefix, ctx);
      var newly := Fresh(box, st.hit);
      SweepHits(prefix, ctx);
      StrikeAllHit(Opened(st, ctx), newly, ctx);
      assert SweepFold(boxes, ctx).hit == st.hit + newly;
      assert Elements(st.hit + newly) == Elements(st.hit) + Elements(box);
      if DistinctBoxes(boxes) {
        assert DistinctBoxes(prefix) by {
          forall k | 0 <= k < |prefix| ensures NoDup(prefix[k]) {
            assert prefix[k] == boxes[k];
          }
        }
        assert NoDup(box);
        NoDupAppend(st.hit, newly);
      }
    } else {
      assert Elements(SweepFold(boxes, ctx).hit) == {};
    }
  }

  /** One damage effect per struck id, in strike order, each dealing the
      sweep's damage. */
  lemma {:induction false} SweepDamage(boxes: seq<seq<EntityId>>, ctx: SweepContext)
    ensures DamageEvents(SweepFold(boxes, ctx).trace) == Damages(ctx, SweepFold(boxes, ctx).hit)
    decreases |boxes|
  {
    if |boxes| > 0 {
      var prefix := boxes[..|boxes| - 1];
      var box := boxes[|boxes| - 1];
      var st := SweepFold(prefix, ctx);
      SweepDamage(prefix, ctx);
      StepDamage(st, box, ctx);
      StrikeAllHit(Opened(st, ctx), Fresh(box, st.hit), ctx);
      DamagesAppend(ctx, st.hit, Fresh(box, st.hit));
    }
  }

  /** The callback runs once per struck id, with that id, the player and the
      stack, exactly when the enchantment carries a callback with an effect. */
  lemma {:induction false} SweepHooks(boxes: seq<seq<EntityId>>, ctx: SweepContext)
    ensures HookEvents(SweepFold(boxes, ctx).trace) == HookRuns(ctx, SweepFold(boxes, ctx).hit)
    decreases |boxes|
  {
    if |boxes| > 0 {
      var prefix := boxes[..|boxes| - 1];
      var box := boxes[|boxes| - 1];
      var st := SweepFold(prefix, ctx);
      SweepHooks(prefix, ctx);
      StepHooks(st, box, ctx);
      StrikeAllHit(Opened(st, ctx), Fresh(box, st.hit), ctx);
      HookRunsAppend(ctx, st.hit, Fresh(box, st.hit));
    }
  }

  /** Every callback run directly follows the damage of its target, and the
      sweep issues nothing but feedback, damage and callback runs. */
  lemma {:induction false} SweepOrder(boxes: seq<seq<EntityId>>, ctx: SweepContext)
    ensures HookFollowsDamage(SweepFold(boxes, ctx).trace)
    ensures SweepOnly(SweepFold(boxes, ctx).trace)
    decreases |boxes|
  {
    if |boxes| > 0 {
      var prefix := boxes[..|boxes| - 1];
      SweepOrder(prefix, ctx);
      StepOrder(SweepFold(prefix, ctx), boxes[|boxes| - 1], ctx);
    }
  }

  lemma NoDupElements(s: seq<EntityId>)
    requires NoDup(s)
    ensures |Elements(s)| == |s|
    decreases |s|
  {
    if |s| > 0 {
      var prefix := s[..|s| - 1];
      assert Elements(s) == Elements(prefix) + {s[|s| - 1]};
      assert s[|s| - 1] !in prefix;
      NoDupElements(prefix);
    }
  }

  /** Damage effects for a list of distinct ids covering the set `u`. */
  lemma DamagesOfDistinct(ctx: SweepContext, hit: seq<EntityId>, u: set<EntityId>)
    requires NoDup(hit) && Elements(hit) == u
    ensures var d := Damages(ctx, hit);
      && |d| == |u|
      && (forall i :: 0 <= i < |d| ==> d[i].EntityDamaged? && d[i].target in u && d[i].amount == ctx.damage)
      && (forall i, j :: 0 <= i < j < |d| ==> d[i].target != d[j].target)
      && (forall t :: t in u ==> exists i :: 0 <= i < |d| && d[i].target == t)
  {
    NoDupElements(hit);
    var d := Damages(ctx, hit);
    forall t | t in u ensures exists i :: 0 <= i < |d| && d[i].target == t {
      var i :| 0 <= i < |hit| && hit[i] == t;
      assert d[i].target == t;
    }
  }

  /** The at-most-once guarantee, stated on the damage effects alone: when
      each query lists an id at most once, every id returned by some step is
      damaged exactly once, nothing else is damaged, every hit deals the
      sweep's damage, and the number of damage effects is the number of
      distinct ids returned. */
  lemma DamagedAtMostOnce(boxes: seq<seq<EntityId>>, ctx: SweepContext)
    requires DistinctBoxes(boxes)
    ensures var d := DamageEvents(SweepFold(boxes, ctx).trace);
      && |d| == |UnionOf(boxes)|
      && (forall i :: 0 <= i < |d| ==>
            d[i].EntityDamaged? && d[i].target in UnionOf(boxes) && d[i].amount == ctx.damage)
      && (forall i, j :: 0 <= i < j < |d| ==> d[i].target != d[j].target)
      && (forall t :: t in UnionOf(boxes) ==> exists i :: 0 <= i < |d| && d[i].target == t)
  {
    SweepHits(boxes, ctx);
    SweepDamage(boxes, ctx);
    DamagesOfDistinct(ctx, SweepFold(boxes, ctx).hit, UnionOf(boxes));
  }

  /** The sweep's loop written as the source writes it: a mutable list of
      struck ids and an effect log, one pass per query result.  It computes
      the fold, so `SweepHits`, `SweepDamage`, `SweepHooks` and `SweepOrder`
      describe its results. */
  method RunSweep(boxes: seq<seq<EntityId>>, ctx: SweepContext) returns (hit: seq<EntityId>, trace: seq<Effect>)
    ensures SweepState(hit, trace) == SweepFold(boxes, ctx)
  {
    hit := [];
    trace := [];
    for i := 0 to |boxes|
      invariant SweepState(hit, trace) == SweepFold(boxes[..i], ctx)
    {
      assert boxes[..i + 1][..i] == boxes[..i];
      trace := trace + StepEffects(ctx);
      var found := Fresh(boxes[i], hit);
      ghost var start := SweepState(hit, trace);
      for j := 0 to |found|
        invariant SweepState(hit, trace) == StrikeAll(start, found[..j], ctx)
      {
        assert found[..j + 1][..j] == found[..j];
        trace := trace + StrikeEffects(ctx, found[j]);
        hit := hit + [found[j]];
      }
      assert found[..|found|] == found;
    }
    assert boxes[..|boxes|] == boxes;
  }
}
